=== FILE: README.md ===
# ImageCompareViewer in Dafny

A model of the before/after comparison slider `ImageCompareViewer`
(`src/components/ImageCompareViewer/index.ts`). Two stacked media layers are
revealed progressively as the user drags a handle across them. The model
covers how the viewer resolves its settings, rebuilds the caller's container
into the slider's structure, builds the handle, projects a pointer position
onto styles, animates the arrows, and runs the drag state machine.

Styles are structured values, not CSS text. `Calc(p, -25)` stands for
`calc(p% - 25px)` and `Inset(t, r, b, l)` for `inset(t r b l)`, with
percentages as `real`. The DOM is abstracted. The container is its class set
plus the list of its descendants in document order. Elements are values
identified by a `NodeId`. The body-scroll lock and the body's `icv__body`
marker are booleans.

Modules, one per part of the engine:

- `Settings` (settings.dfy): the shallow merge over the defaults, the line
  width fallback, the label-text fallbacks, the Safari override and the
  transition style.
- `Geometry` (geometry.dfy): `slideCompare` as a pure function. It also
  defines read-back functions that recover the shown position from the handle
  and from the wrapper.
- `Arrows` (arrows.dfy): the arrow coordinates, the hover translation and
  `getArrowRotation`.
- `Control` (control.dfy): `buildControl`.
- `Scene` (scene.dfy): `shapeContainer` and `getImages`.
- `Viewer` (viewer.dfy): the constructor, `mount`, one transition per event
  listener, and the user inputs that run them. It proves invariants over
  whole sessions of inputs.
- `Seqs` and `Wrappers` (seqs.dfy, wrappers.dfy): order-preserving
  selection, reversal, and the Option/Result types.

Behaviour worth noting:

- The spacer (`icv__imposter`) is never given the `keep` class. `getImages`
  therefore drops it when it empties the container (`Scene.ImposterDiscarded`).
- Only the handle listens for `touchstart`; the container does not.
- The container's own `mouseup` clears `active` and nothing else. The drag
  ends through the body's listener, which a mouse-up inside the container
  also reaches by bubbling (`Viewer.Handlers`).
- In fluid mode, a container with no `img`/`video` makes `getImages` throw,
  because it reads `src` of a missing first layer. The model returns
  `Err(TypeError)` there.

## Model

| member | source | states |
|---|---|---|
| Settings.Resolve | src/components/ImageCompareViewer/index.ts:41-61 | seen as key/value objects, the effective settings are the map union of the defaults and the keys the caller supplied; a supplied key always wins, and a supplied `labelOptions` replaces the default one whole |
| Settings.ResolveNothing | src/components/ImageCompareViewer/index.ts:42-61 | with nothing supplied the settings are exactly the defaults |
| Settings.ResolveFull | src/components/ImageCompareViewer/index.ts:61 | a caller who supplies every key gets exactly what it supplied; no default leaks through |
| Settings.ResolveOverlay | src/components/ImageCompareViewer/index.ts:61 | spreading `q` over already-resolved settings equals resolving `p` overlaid with `q`; the shallow merge composes |
| Settings.ResolveLineWidth | src/components/ImageCompareViewer/index.ts:64 | the line width is the caller's value when it is present and non-zero, and 2 otherwise; it is never zero |
| Settings.BeforeText | src/components/ImageCompareViewer/index.ts:205 | the "before" label text is never empty: the caller's non-empty text, else "Before" |
| Settings.AfterText | src/components/ImageCompareViewer/index.ts:206 | the "after" label text is never empty: the caller's non-empty text, else "After" |
| Settings.OnHover | src/components/ImageCompareViewer/index.ts:195 | the on-hover flag holds exactly when `onHover` is present and true |
| Settings.LabelsWholesaleUnobservable | src/components/ImageCompareViewer/index.ts:48-61 | replacing `labelOptions` whole gives the same label texts and hover flag as a field-by-field merge would |
| Settings.ForBrowser | src/components/ImageCompareViewer/index.ts:68-70 | on Safari `smoothing` becomes false; every other key keeps its value |
| Settings.TransitionStyle | src/components/ImageCompareViewer/index.ts:354-358 | there is no transition exactly when the device has touch or smoothing is off; otherwise it lasts `smoothingAmount` ms |
| Settings.SafariNeverSmooths | src/components/ImageCompareViewer/index.ts:68-70 | after the Safari override no element has a transition |
| Geometry.Position | src/components/ImageCompareViewer/index.ts:149-156 | the position is the percentage `p` with `p * extent == 100 * distance` on the active axis; a zero extent yields no position, because the JavaScript quotient is infinite or NaN |
| Geometry.SlideCompare | src/components/ImageCompareViewer/index.ts:146-158 | with the handle or the wrapper missing, or with the position outside [0, 100] or undefined, the styles after the call equal those before it (freeze, not clamp) |
| Geometry.AcceptedIsApplied | src/components/ImageCompareViewer/index.ts:158-179 | an accepted position `p` lies in [0, 100]; reading the handle and the wrapper back both give `p`; the handle sits at `calc(p% - 25px)` on the active axis |
| Geometry.WrittenValuesInRange | src/components/ImageCompareViewer/index.ts:158-179 | whenever the call changes anything, the written position lies in [0, 100] and the handle and the wrapper show the same value |
| Geometry.AxisSelection | src/components/ImageCompareViewer/index.ts:159-167 | in vertical mode only `control.top` may change; in horizontal mode only `control.left` |
| Geometry.ModeExclusivity | src/components/ImageCompareViewer/index.ts:169-179 | in fluid mode only the wrapper's clip-path may change; in standard mode the clip-path is never written, and only the height (vertical) or only the width (horizontal) may change. For an accepted position `p` the fluid mask is `inset(0 0 (100-p)% 0)` (vertical) or `inset(0 0 0 p%)` (horizontal), the height is `p`%, and the width is `(100-p)`% |
| Geometry.SlideCompareKeepsAgreement | src/components/ImageCompareViewer/index.ts:146-181 | if the handle and the wrapper show the same position before the call, they still do after it |
| Geometry.LastWriteWins | src/components/ImageCompareViewer/index.ts:146-181 | after an accepted sample, no trace of an earlier sample remains |
| Geometry.SlideCompareIdempotent | src/components/ImageCompareViewer/index.ts:146-181 | repeating a sample changes nothing further |
| Geometry.ScenarioHorizontalStandard | src/components/ImageCompareViewer/index.ts:153-177 | a 400x300 container with the pointer at (100, 150) gives left `calc(25% - 25px)` and a wrapper width of 75% |
| Geometry.ScenarioVerticalFluid | src/components/ImageCompareViewer/index.ts:153-172 | in vertical fluid mode with the pointer at y = 270 the result is top `calc(90% - 25px)` and mask `inset(0 0 10% 0)` |
| Geometry.ScenarioOutside | src/components/ImageCompareViewer/index.ts:153-158 | a pointer 10px left of the container changes nothing |
| Arrows.ArrowPositions | src/components/ImageCompareViewer/index.ts:372-388 | both arrows move along Y exactly in vertical mode; arrow 1 always mirrors arrow 0; arrow 0 moves by the circle or standard resting offset at rest and by the hovered offset on hover |
| Arrows.CircleDiffersFromStandard | src/components/ImageCompareViewer/index.ts:36-39 | circle and standard modes move arrow 0 by different amounts; hovering moves it towards the centre but not past it |
| Arrows.ScenarioStandardHover | src/components/ImageCompareViewer/index.ts:372-388 | without a circle, in horizontal mode, the arrows go from +8/-8 px at rest to 0/0 px on hover, along X |
| Arrows.ArrowRotation | src/components/ImageCompareViewer/index.ts:347-352 | arrow 0 turns 180° (−90° in vertical mode) and every other arrow 0° (90° in vertical mode) |
| Arrows.RotationsOpposite | src/components/ImageCompareViewer/index.ts:347-352 | the two rotations are half a turn apart, and arrow 1 points along the vertical axis exactly in vertical mode |
| Arrows.ArrowIconAsWritten | src/components/ImageCompareViewer/index.ts:231-258 | the chevron carries no rotation; it is stroked 3 wide with a transparent fill with a circle, and filled with the control colour without one |
| Arrows.AsWrittenArrowsPointAlike | src/components/ImageCompareViewer/index.ts:231-258 | as written, both arrows draw the identical chevron |
| Arrows.ArrowIcon | src/components/ImageCompareViewer/index.ts:233 | the corrected chevron is the as-written one with `getArrowRotation`'s angle applied |
| Arrows.ArrowIconsPointApart | src/components/ImageCompareViewer/index.ts:347-352 | with the rotation applied the two chevrons differ and point in opposite directions |
| Control.InitialControlStyle | src/components/ImageCompareViewer/index.ts:262-267 | the handle is 50px thick on the active axis only, starts at `calc(startingPoint% - 25px)` on that axis, and reads back as the starting point |
| Control.ControlWith | src/components/ImageCompareViewer/index.ts:223-293 | the handle holds a line, then a circle exactly when `addCircle`, then the given arrow pair at rest, then a copy of the first line; the line has the orientation, `lineWidth`, control colour and shadow of the settings, the ring has `lineWidth`, the control colour, `addCircleBlur` and the shadow, and the handle starts at the starting point |
| Control.BuildControl | src/components/ImageCompareViewer/index.ts:223-293 | the handle has that shape, its style is the initial one (50px on the active axis only, at the starting point less 25px, with the transition), and as written both arrows carry the same unrotated chevron |
| Control.BuildControlCorrected | src/components/ImageCompareViewer/index.ts:231-258 | the same handle, with the same initial style, but with each arrow rotated by `getArrowRotation`, so the two arrows differ |
| Scene.ShapeContainer | src/components/ImageCompareViewer/index.ts:187-221 | the container keeps its content, gains both labels exactly when `showLabels`, then the spacer, and gets its orientation and mode classes; the labels are marked to be kept and the spacer is not |
| Scene.LabelsFollowSettings | src/components/ImageCompareViewer/index.ts:192-206 | label texts are never empty, and both labels carry `on-hover` exactly when `onHover` is on and `vertical` exactly in vertical mode |
| Scene.FluidModeStyle | src/components/ImageCompareViewer/index.ts:360-370 | a fluid style exists exactly in fluid mode, and it uses the foreground URL |
| Scene.InitialWrapperStyle | src/components/ImageCompareViewer/index.ts:320-326 | the wrapper starts `100 - startingPoint`% wide and `startingPoint`% high; in fluid mode its background image is the foreground URL, and it has a mask exactly in fluid mode; read back, it shows the starting point in all four modes |
| Scene.InitialMaskIsDragMask | src/components/ImageCompareViewer/index.ts:364-368 | the mask set at construction is the one `slideCompare` writes for the starting point |
| Scene.GetImages | src/components/ImageCompareViewer/index.ts:295-345 | the rebuild throws exactly in fluid mode with no media; otherwise there is a wrapper exactly when there are at least two media, and it reads back as the starting point. In fluid mode the fluid base shows the first layer's `src` and the wrapper's background the second layer's. The wrapper's style is the initial wrapper style for the second layer's `src`. The node in the wrapper is the second layer itself: same identity, tag, `src` and text, with `icv__img-b` added, and in standard mode a non-zero `layerAWidth` pins its width; otherwise its width is untouched |
| Scene.LayerOrder | src/components/ImageCompareViewer/index.ts:300-306 | the layers are the media in document order, reversed exactly in vertical mode |
| Scene.GetImagesOrder | src/components/ImageCompareViewer/index.ts:296-334 | the top-level children are the kept nodes in document order; when a second layer exists, it alone is missing there and sits in the wrapper with `icv__img-b` |
| Scene.GetImagesMarksFirstLayer | src/components/ImageCompareViewer/index.ts:308-313 | each top-level node is unchanged from the original content, except the first layer, which gains `icv__img` and `icv__img-a`; media past the second are left alone |
| Scene.ImposterNotKept | src/components/ImageCompareViewer/index.ts:219-220 | the spacer is not among the nodes the rebuild keeps |
| Scene.ImposterDiscarded | src/components/ImageCompareViewer/index.ts:296-298 | after the rebuild the spacer is gone from the container |
| Seqs.Select | src/components/ImageCompareViewer/index.ts:300-302 | the selection holds exactly the elements that pass the test |
| Seqs.SelectAppend | src/components/ImageCompareViewer/index.ts:296-298 | selection distributes over concatenation, so it never reorders |
| Seqs.Reverse | src/components/ImageCompareViewer/index.ts:304-306 | the reversal holds element `|s|-1-i` at index `i` |
| Viewer.Construct | src/components/ImageCompareViewer/index.ts:41-65 | the constructed viewer's settings are the defaults overlaid with the supplied keys, and its line width is non-zero and is the caller's when that is non-zero |
| Viewer.Mount | src/components/ImageCompareViewer/index.ts:67-77 | mounting fails exactly when the rebuild throws; otherwise nothing is active or locked, the arrows rest, handle and wrapper both show the starting point, Safari gets no transition, and only `smoothing` differs from the constructed settings; the mounted classes, scene and handle are exactly those that `shapeContainer`, `getImages` and `buildControl` produce for the overridden settings |
| Viewer.MountShaped | src/components/ImageCompareViewer/index.ts:72-74 | after the browser override, mounting fails exactly when `getImages` throws, and otherwise assembles the shaped container's classes with the rebuilt scene |
| Viewer.Assemble | src/components/ImageCompareViewer/index.ts:72-75 | the mounted widget holds the rebuilt scene and the handle `buildControl` makes; the live styles are that handle's and the wrapper's initial styles; nothing is active or locked, the arrows rest, and the handle and the wrapper both show the starting point |
| Viewer.Step | src/components/ImageCompareViewer/index.ts:79-122 | no handler changes the settings, the line width, the container classes, the scene or the handle's structure |
| Viewer.DragStart | src/components/ImageCompareViewer/index.ts:80-103 | mousedown activates, marks the body, locks scrolling and updates once; touchstart on the handle does the same without updating |
| Viewer.MoveOnlyWhileActive | src/components/ImageCompareViewer/index.ts:87-107 | mouse and touch moves do nothing unless active, and when active both apply `slideCompare` to the styles and change nothing else |
| Viewer.DragEnd | src/components/ImageCompareViewer/index.ts:91-113 | the body's mouseup and touchend deactivate, unmark and unlock; the container's mouseup only deactivates |
| Viewer.Hover | src/components/ImageCompareViewer/index.ts:115-122 | mouseenter activates exactly when `hoverStart` and moves the arrows to hover; mouseleave only moves them back to rest |
| Viewer.ArrowsOnlyOnHover | src/components/ImageCompareViewer/index.ts:80-113 | no drag handler touches the arrows |
| Viewer.SingleLayerFrozen | src/components/ImageCompareViewer/index.ts:147 | without a wrapper no event changes any style |
| Viewer.MarkerTracksLock | src/components/ImageCompareViewer/index.ts:80-113 | the body marker and the scroll lock agree after any run of handlers |
| Viewer.Handlers | src/components/ImageCompareViewer/index.ts:91-97 | a mouse-up inside the container runs the container's handler and then the body's; every other input runs exactly one handler |
| Viewer.MountGood | src/components/ImageCompareViewer/index.ts:67-77 | a freshly mounted widget satisfies the session invariant |
| Viewer.DeliverGood | src/components/ImageCompareViewer/index.ts:80-122 | every user input preserves the session invariant |
| Viewer.SessionGood | src/components/ImageCompareViewer/index.ts:80-122 | over any session: marker and lock agree, the page is locked only during a drag, the arrows are at rest or hovered, the handle is at the starting point or in [0, 100], and the wrapper shows the handle's position |
| Viewer.ReleaseInsideIsReleaseOutside | src/components/ImageCompareViewer/index.ts:91-97 | a mouse-up inside the container ends the drag exactly as one elsewhere does |
| Viewer.ScenarioReleaseOnBody | src/components/ImageCompareViewer/index.ts:80-97 | a drag started in the container and released on the page body ends inactive and unlocked |

## Findings

| source | as written | input that shows it | evidently intended | confidence | as-written member | corrected member |
|---|---|---|---|---|---|---|
| src/components/ImageCompareViewer/index.ts:233 | `getArrowRotation(idx)` is computed into `rotation` and never used, so both arrows draw the same right-pointing chevron | any settings, e.g. the defaults: icon 0 equals icon 1 | arrow 0 rotated 180° (−90° in vertical mode) and arrow 1 0° (90°), so the pair points apart | medium, not executed (a stylesheet outside this model could rotate the icons) | Arrows.AsWrittenArrowsPointAlike | Arrows.ArrowIconsPointApart |

`Control.BuildControl` builds the handle as written, and the rest of the model mounts that one. `Control.BuildControlCorrected` builds the same handle with the corrected `Arrows.ArrowIcon`.

## Left out

- The window resize handler (index.ts:124-143) is not modelled. It rewrites the second layer's pixel width using `getBoundingClientRect` and `toFixed(2)`, which is float formatting.
- Real DOM operations are not modelled: `querySelectorAll`, `innerHTML`, `appendChild`, `cloneNode` and SVG construction. The container is its descendants as a document-order list. Re-appending the matched nodes moves any nested match out to top level, so the rebuilt list is exact.
- Measurements become parameters. The container's bounds are part of each pointer sample. The rendered width of the first layer (index.ts:316) is `layerAWidth`.
- The `body-scroll-lock-upgrade` library is a boolean lock. Its scrollbar-gutter reservation is not modelled.
- User-agent sniffing (index.ts:62) is not modelled. Construction takes a boolean `isSafari`, and the `ontouchstart` test (index.ts:355) is a boolean `hasTouch`.
- `reset()` (index.ts:390-392) is an empty placeholder.
- CSS text is not modelled. Shadows and blur are booleans. Of an arrow's SVG, only stroke, stroke width, fill and rotation are kept.
- Numbers are reals: IEEE rounding, infinities and NaN are not modelled, except that a zero extent yields no position.
- Settings.Resolve: a key passed with the value `undefined` is treated as absent. In JavaScript it would override the default with `undefined`.
- Settings.ResolveLineWidth: a NaN line width is not modelled. It is falsy in JavaScript and would also fall back to 2.
- Viewer.Mount: when `getImages` throws, the container the source leaves behind is not modelled. By then the Safari override has been applied (index.ts:68-70), the container classes, labels and spacer have been added (index.ts:213-220), and the container has been emptied and refilled without the spacer (index.ts:296-298). The model returns only `Err(TypeError)`.
- Calling `mount()` twice on the same container is not modelled; it rebuilds an already rebuilt tree.
- Event propagation is not modelled beyond the body's mouse-up listener, which is reached by bubbling. Other page code that stops propagation, and lost pointer capture, are out of scope.
- Only the first touch (`touches[0]`) of a touch event is modelled, as the sample's point.
- src/stores/useUserStore.ts, src/main.ts and env.d.ts are not part of this model. They hold login and persistence glue, application bootstrap and ambient type declarations, with no slider logic.

=== FILE: arrows.dfy ===
/** The two arrow indicators of the handle: their hover animation
    (`updateArrowPosition`), their rotation (`getArrowRotation`) and the
    chevron icons built for them. */
module Arrows {
  import opened Wrappers
  import opened Settings

  datatype Axis = X | Y

  /** `transform: translateX(px)` or `translateY(px)` on an arrow's animator. */
  datatype Translate = Translate(axis: Axis, px: real)

  /** `arrowCoordinates` (index.ts:36-39): the resting and the hovered offset. */
  datatype Coordinates = Coordinates(rest: real, hover: real)

  const Circle: Coordinates := Coordinates(5.0, 3.0)
  const Standard: Coordinates := Coordinates(8.0, 0.0)

  /** The pair in use: the circle pair when the handle has a circle. */
  function ArrowCoordinates(addCircle: bool): Coordinates {
    if addCircle then Circle else Standard
  }

  /** `updateArrowPosition` (index.ts:372-388) over the two animators that
      `buildControl` creates: both translate along Y exactly in vertical
      mode; arrow 1 mirrors arrow 0; arrow 0 moves by the resting offset at
      rest and by the hovered offset on hover. */
  function ArrowPositions(s: Settings, isHover: bool): (r: seq<Translate>)
    ensures |r| == 2
    ensures forall i | 0 <= i < 2 :: r[i].axis == Y <==> s.verticalMode
    ensures r[1].px == -r[0].px
    ensures var c := ArrowCoordinates(s.addCircle);
            r[0].px == (if isHover then c.hover else c.rest)
  {
    var c := ArrowCoordinates(s.addCircle);
    var axis := if s.verticalMode then Y else X;
    seq(2, i requires 0 <= i < 2 =>
      Translate(axis, if isHover then c.hover * (if i == 0 then 1.0 else -1.0)
                      else if i == 0 then c.rest else -c.rest))
  }

  /** Circle mode and standard mode move the arrows by different amounts,
      both at rest and on hover, and hovering moves each arrow towards the
      centre, never past it. */
  lemma {:induction false} CircleDiffersFromStandard(s: Settings, isHover: bool)
    ensures var a := ArrowPositions(s.(addCircle := true), isHover);
            var b := ArrowPositions(s.(addCircle := false), isHover);
            a[0].px != b[0].px
    ensures var rest := ArrowPositions(s, false);
            var hover := ArrowPositions(s, true);
            0.0 <= hover[0].px < rest[0].px
  {
  }

  /** With no circle in horizontal mode, hovering takes arrow 0 from +8px
      to 0px along X, and arrow 1 from -8px to 0px. */
  lemma ScenarioStandardHover(s: Settings)
    requires !s.addCircle && !s.verticalMode
    ensures ArrowPositions(s, false) == [Translate(X, 8.0), Translate(X, -8.0)]
    ensures ArrowPositions(s, true) == [Translate(X, 0.0), Translate(X, 0.0)]
  {
  }

  /** `getArrowRotation` (index.ts:347-352), in degrees. */
  function ArrowRotation(vertical: bool, idx: nat): (r: real)
    ensures idx == 0 && !vertical ==> r == 180.0
    ensures idx == 0 && vertical ==> r == -90.0
    ensures idx != 0 && !vertical ==> r == 0.0
    ensures idx != 0 && vertical ==> r == 90.0
  {
    if idx == 0 then (if vertical then -90.0 else 180.0)
    else if vertical then 90.0 else 0.0
  }

  /** The two rotations are half a turn apart: the arrows point in opposite
      directions, along the vertical axis exactly in vertical mode. */
  lemma RotationsOpposite(vertical: bool)
    ensures ArrowRotation(vertical, 0) - ArrowRotation(vertical, 1) == (if vertical then -180.0 else 180.0)
    ensures vertical <==> ArrowRotation(vertical, 1) == 90.0
  {
  }

  datatype Fill = Transparent | Colour(c: string)

  /** One chevron icon: the stroke colour, width and fill of its path and
      the rotation applied to it, if any. */
  datatype Icon = Icon(stroke: string, strokeWidth: real, fill: Fill, rotation: Option<real>)

  /** The chevron as `buildControl` writes it (index.ts:231-258): the
      rotation computed at line 233 is never applied, so the icon does not
      depend on its index. */
  function ArrowIconAsWritten(s: Settings, idx: nat): (icon: Icon)
    ensures icon.rotation.None?
    ensures icon.stroke == s.controlColor
    ensures s.addCircle ==> icon.strokeWidth == 3.0 && icon.fill == Transparent
    ensures !s.addCircle ==> icon.strokeWidth == 0.0 && icon.fill == Colour(s.controlColor)
  {
    Icon(s.controlColor, if s.addCircle then 3.0 else 0.0,
         if s.addCircle then Transparent else Colour(s.controlColor), None)
  }

  /** As written, both arrows draw the very same chevron, pointing the same way. */
  lemma AsWrittenArrowsPointAlike(s: Settings)
    ensures ArrowIconAsWritten(s, 0) == ArrowIconAsWritten(s, 1)
  {
  }

  /** The chevron with its rotation applied, as `getArrowRotation` evidently intends. */
  function ArrowIcon(s: Settings, idx: nat): (icon: Icon)
    ensures icon == ArrowIconAsWritten(s, idx).(rotation := icon.rotation)
    ensures icon.rotation.Some?
    ensures idx == 0 ==> icon.rotation.value == (if s.verticalMode then -90.0 else 180.0)
    ensures idx != 0 ==> icon.rotation.value == (if s.verticalMode then 90.0 else 0.0)
  {
    ArrowIconAsWritten(s, idx).(rotation := Some(ArrowRotation(s.verticalMode, idx)))
  }

  /** With the rotation applied the two chevrons differ and point in
      opposite directions. */
  lemma {:induction false} ArrowIconsPointApart(s: Settings)
    ensures ArrowIcon(s, 0) != ArrowIcon(s, 1)
    ensures ArrowIcon(s, 0).rotation.value - ArrowIcon(s, 1).rotation.value == (if s.verticalMode then -180.0 else 180.0)
  {
    RotationsOpposite(s.verticalMode);
  }
}

=== FILE: control.dfy ===
/** `buildControl`: the draggable handle with its divider lines, optional
    magnifier circle and arrow pair, and its initial placement. */
module Control {
  import opened Wrappers
  import opened Settings
  import opened Geometry
  import opened Arrows

  /** The handle's children. A divider line is `lineWidth` pixels thick
      along the active axis; the circle is bordered `lineWidth` pixels wide. */
  datatype Part =
    | Line(vertical: bool, thicknessPx: real, colour: string, shadow: bool)
    | Ring(borderPx: real, colour: string, blur: bool, shadow: bool)
    | ArrowPair(icons: seq<Icon>, positions: seq<Translate>)

  datatype ControlNode = ControlNode(style: ControlStyle, parts: seq<Part>)

  /** The handle's initial inline style (index.ts:262-267): `slideWidth`
      pixels thick on the active axis and placed at the starting point. */
  function InitialControlStyle(s: Settings, hasTouch: bool): (c: ControlStyle)
    ensures HandlePercent(s.verticalMode, c) == Some(s.startingPoint)
    ensures s.verticalMode ==> c.height == Some(SlideWidth) && c.width.None? && c.left.None? && c.top == Some(Calc(s.startingPoint, -25.0))
    ensures !s.verticalMode ==> c.width == Some(SlideWidth) && c.height.None? && c.top.None? && c.left == Some(Calc(s.startingPoint, -25.0))
    ensures c.transitionMs == TransitionStyle(s, hasTouch)
  {
    var offset := Some(HandleOffset(s.startingPoint));
    if s.verticalMode then ControlStyle(None, Some(SlideWidth), None, offset, TransitionStyle(s, hasTouch))
    else ControlStyle(Some(SlideWidth), None, offset, None, TransitionStyle(s, hasTouch))
  }

  /** The shape `buildControl` gives the handle (index.ts:223-293): a
      divider line, the circle exactly when `addCircle`, the arrow pair at
      rest, and a clone of the first line last; lines and circle are
      `lineWidth` thick, and the handle starts at the starting point. */
  predicate WellBuilt(s: Settings, lineWidth: real, c: ControlNode) {
    && |c.parts| == (if s.addCircle then 4 else 3)
    && c.parts[0] == Line(s.verticalMode, lineWidth, s.controlColor, s.controlShadow)
    && c.parts[|c.parts| - 1] == c.parts[0]
    && (s.addCircle <==> c.parts[1].Ring?)
    && (s.addCircle ==> c.parts[1] == Ring(lineWidth, s.controlColor, s.addCircleBlur, s.controlShadow))
    && (forall i | 0 <= i < |c.parts| :: c.parts[i].Ring? ==> c.parts[i].borderPx == lineWidth)
    && c.parts[|c.parts| - 2].ArrowPair?
    && c.parts[|c.parts| - 2].positions == ArrowPositions(s, false)
    && |c.parts[|c.parts| - 2].icons| == 2
    && HandlePercent(s.verticalMode, c.style) == Some(s.startingPoint)
  }

  /** The handle with the given pair of arrow icons. */
  function ControlWith(s: Settings, lineWidth: real, hasTouch: bool, icons: seq<Icon>): (c: ControlNode)
    requires |icons| == 2
    ensures WellBuilt(s, lineWidth, c)
    ensures c.parts[|c.parts| - 2].icons == icons
    ensures c.style == InitialControlStyle(s, hasTouch)
  {
    var line := Line(s.verticalMode, lineWidth, s.controlColor, s.controlShadow);
    var ring := Ring(lineWidth, s.controlColor, s.addCircleBlur, s.controlShadow);
    var arrows := ArrowPair(icons, ArrowPositions(s, false));
    ControlNode(InitialControlStyle(s, hasTouch),
                [line] + (if s.addCircle then [ring] else []) + [arrows, line])
  }

  /** `buildControl` as written: both arrows carry the same unrotated
      chevron, since the rotation computed at index.ts:233 is never used. */
  function BuildControl(s: Settings, lineWidth: real, hasTouch: bool): (c: ControlNode)
    ensures WellBuilt(s, lineWidth, c)
    ensures c.parts[|c.parts| - 2].icons == [ArrowIconAsWritten(s, 0), ArrowIconAsWritten(s, 1)]
    ensures c.parts[|c.parts| - 2].icons[0] == c.parts[|c.parts| - 2].icons[1]
    ensures c.style == InitialControlStyle(s, hasTouch)
    ensures c.style.transitionMs == TransitionStyle(s, hasTouch)
  {
    AsWrittenArrowsPointAlike(s);
    ControlWith(s, lineWidth, hasTouch, [ArrowIconAsWritten(s, 0), ArrowIconAsWritten(s, 1)])
  }

  /** `buildControl` with the rotation applied to each arrow, as the
      computed rotation evidently intends: the two arrows point apart. */
  function BuildControlCorrected(s: Settings, lineWidth: real, hasTouch: bool): (c: ControlNode)
    ensures WellBuilt(s, lineWidth, c)
    ensures c.parts[|c.parts| - 2].icons == [ArrowIcon(s, 0), ArrowIcon(s, 1)]
    ensures c.parts[|c.parts| - 2].icons[0] != c.parts[|c.parts| - 2].icons[1]
    ensures c.style == InitialControlStyle(s, hasTouch)
    ensures c.style.transitionMs == TransitionStyle(s, hasTouch)
  {
    ArrowIconsPointApart(s);
    ControlWith(s, lineWidth, hasTouch, [ArrowIcon(s, 0), ArrowIcon(s, 1)])
  }
}

=== FILE: geometry.dfy ===
/** The position engine: from a pointer coordinate and the container's
    bounding box to a percentage along the active axis, and from that
    percentage to the style updates of the handle (`control`) and of the
    foreground layer's wrapper. Styles are structured values, not CSS text. */
module Geometry {
  import opened Wrappers
  import opened Settings

  /** `slideWidth`: the handle's thickness in pixels (index.ts:33). */
  const SlideWidth: real := 50.0

  /** `calc(pct% + px px)`; the handle offset `calc(p% - 25px)` is `Calc(p, -25)`. */
  datatype Offset = Calc(pct: real, px: real)

  /** `inset(top right bottom left)`, every side a percentage. */
  datatype Inset = Inset(top: real, right: real, bottom: real, left: real)

  /** The inline style fields of the handle that the engine writes:
      its size in pixels, its offset on either axis and its transition. */
  datatype ControlStyle = ControlStyle(
    width: Option<real>,
    height: Option<real>,
    left: Option<Offset>,
    top: Option<Offset>,
    transitionMs: Option<real>)

  /** The inline style fields of the foreground wrapper: width and height
      as percentages, transition, background image URL and clip mask. */
  datatype WrapperStyle = WrapperStyle(
    width: Option<real>,
    height: Option<real>,
    transitionMs: Option<real>,
    backgroundImage: Option<string>,
    clipPath: Option<Inset>)

  /** `this.control` and `this.wrapper`: either may still be null. */
  datatype Styles = Styles(control: Option<ControlStyle>, wrapper: Option<WrapperStyle>)

  /** The result of `getBoundingClientRect` on the container. */
  datatype Bounds = Bounds(left: real, top: real, width: real, height: real)

  /** The `clientX`/`clientY` of a mouse event or of a touch event's first touch. */
  datatype Point = Point(clientX: real, clientY: real)

  /** The extent of the container along the active axis. */
  function Extent(vertical: bool, b: Bounds): real {
    if vertical then b.height else b.width
  }

  /** The pointer's distance from the container's leading edge on that axis. */
  function Along(vertical: bool, b: Bounds, pt: Point): real {
    if vertical then pt.clientY - b.top else pt.clientX - b.left
  }

  /** `position` in `slideCompare` (index.ts:153-156). A zero extent makes
      the JavaScript quotient infinite or NaN; both fail the range test that
      follows, so that case is `None`. Otherwise `p` is the unique
      percentage with `p * extent == 100 * distance`. */
  function Position(vertical: bool, b: Bounds, pt: Point): (p: Option<real>)
    ensures p.None? <==> Extent(vertical, b) == 0.0
    ensures p.Some? ==> p.value * Extent(vertical, b) == Along(vertical, b, pt) * 100.0
  {
    var e := Extent(vertical, b);
    if e == 0.0 then None else Some(Along(vertical, b, pt) / e * 100.0)
  }

  /** The range test `position >= 0 && position <= 100` (index.ts:158). */
  predicate Accepted(p: Option<real>) {
    p.Some? && 0.0 <= p.value <= 100.0
  }

  /** The handle offset `calc(p% - slideWidth/2 px)` (index.ts:159-161). */
  function HandleOffset(p: real): Offset {
    Calc(p, -(SlideWidth / 2.0))
  }

  /** The handle written at position `p` on the active axis (index.ts:163-167). */
  function MoveHandle(vertical: bool, c: ControlStyle, p: real): ControlStyle {
    if vertical then c.(top := Some(HandleOffset(p))) else c.(left := Some(HandleOffset(p)))
  }

  /** The wrapper written at position `p` (index.ts:169-179). */
  function Reveal(fluid: bool, vertical: bool, w: WrapperStyle, p: real): WrapperStyle {
    if fluid then
      w.(clipPath := Some(if vertical then Inset(0.0, 0.0, 100.0 - p, 0.0) else Inset(0.0, 0.0, 0.0, p)))
    else if vertical then
      w.(height := Some(p))
    else
      w.(width := Some(100.0 - p))
  }

  /** `slideCompare` (index.ts:146-181): nothing changes while the handle or
      the wrapper is missing, nor when the pointer lies outside the
      container on the active axis (the styles freeze at their last value
      instead of being clamped); otherwise both are updated. */
  function SlideCompare(s: Settings, st: Styles, b: Bounds, pt: Point): (r: Styles)
    ensures st.control.None? || st.wrapper.None? ==> r == st
    ensures !Accepted(Position(s.verticalMode, b, pt)) ==> r == st
    ensures r.control.Some? == st.control.Some? && r.wrapper.Some? == st.wrapper.Some?
  {
    if st.control.None? || st.wrapper.None? then st
    else
      var pos := Position(s.verticalMode, b, pt);
      if Accepted(pos) then
        Styles(Some(MoveHandle(s.verticalMode, st.control.value, pos.value)),
               Some(Reveal(s.fluidMode, s.verticalMode, st.wrapper.value, pos.value)))
      else st
  }

  /** The percentage the handle shows on the active axis, read back from its style. */
  function HandlePercent(vertical: bool, c: ControlStyle): Option<real> {
    var o := if vertical then c.top else c.left;
    if o.Some? then Some(o.value.pct) else None
  }

  /** The percentage at which the wrapper reveals the foreground, read back
      from the one field the active mode uses: the clip mask's bottom or
      left side in fluid mode, the height or the complement of the width in
      standard mode. */
  function RevealedPercent(fluid: bool, vertical: bool, w: WrapperStyle): Option<real> {
    if fluid then
      if w.clipPath.None? then None
      else if vertical then Some(100.0 - w.clipPath.value.bottom) else Some(w.clipPath.value.left)
    else if vertical then
      w.height
    else if w.width.Some? then Some(100.0 - w.width.value) else None
  }

  /** A handle and a wrapper agree when they show the same position. */
  predicate Agree(s: Settings, st: Styles) {
    st.control.Some? && st.wrapper.Some? ==>
      HandlePercent(s.verticalMode, st.control.value) == RevealedPercent(s.fluidMode, s.verticalMode, st.wrapper.value)
  }

  /** An accepted sample is written to both elements: reading either back
      yields the sample's percentage, which lies in [0, 100], and the handle
      is drawn half its thickness before it. */
  lemma AcceptedIsApplied(s: Settings, st: Styles, b: Bounds, pt: Point)
    requires st.control.Some? && st.wrapper.Some?
    requires Accepted(Position(s.verticalMode, b, pt))
    ensures var p := Position(s.verticalMode, b, pt).value;
            var r := SlideCompare(s, st, b, pt);
            && 0.0 <= p <= 100.0
            && HandlePercent(s.verticalMode, r.control.value) == Some(p)
            && RevealedPercent(s.fluidMode, s.verticalMode, r.wrapper.value) == Some(p)
            && (if s.verticalMode then r.control.value.top else r.control.value.left) == Some(Calc(p, -25.0))
  {
  }

  /** Range invariant: whatever `slideCompare` writes lies in [0, 100]. */
  lemma {:induction false} WrittenValuesInRange(s: Settings, st: Styles, b: Bounds, pt: Point)
    requires SlideCompare(s, st, b, pt) != st
    ensures var r := SlideCompare(s, st, b, pt);
            && r.control.Some? && r.wrapper.Some?
            && var h := HandlePercent(s.verticalMode, r.control.value);
               var w := RevealedPercent(s.fluidMode, s.verticalMode, r.wrapper.value);
               h.Some? && 0.0 <= h.value <= 100.0 && w == h
  {
    AcceptedIsApplied(s, st, b, pt);
  }

  /** Axis selection: in vertical mode only `control.top` may change and in
      horizontal mode only `control.left`; every other handle field, and in
      particular the other axis, is left untouched. */
  lemma AxisSelection(s: Settings, st: Styles, b: Bounds, pt: Point)
    requires st.control.Some?
    ensures var c := st.control.value;
            var c' := SlideCompare(s, st, b, pt).control.value;
            if s.verticalMode then c' == c.(top := c'.top) else c' == c.(left := c'.left)
  {
  }

  /** Mode exclusivity: in fluid mode only the clip mask of the wrapper may
      change; in standard mode the clip mask is never written, and only the
      height (vertical) or only the width (horizontal) may change. */
  lemma ModeExclusivity(s: Settings, st: Styles, b: Bounds, pt: Point)
    requires st.wrapper.Some?
    ensures var w := st.wrapper.value;
            var w' := SlideCompare(s, st, b, pt).wrapper.value;
            if s.fluidMode then w' == w.(clipPath := w'.clipPath)
            else if s.verticalMode then w' == w.(height := w'.height)
            else w' == w.(width := w'.width)
    ensures st.control.Some? && Accepted(Position(s.verticalMode, b, pt)) ==>
            var p := Position(s.verticalMode, b, pt).value;
            var w' := SlideCompare(s, st, b, pt).wrapper.value;
            if s.fluidMode then
              w'.clipPath == Some(if s.verticalMode then Inset(0.0, 0.0, 100.0 - p, 0.0) else Inset(0.0, 0.0, 0.0, p))
            else if s.verticalMode then w'.height == Some(p)
            else w'.width == Some(100.0 - p)
  {
  }

  /** The update preserves agreement between the handle and the wrapper. */
  lemma SlideCompareKeepsAgreement(s: Settings, st: Styles, b: Bounds, pt: Point)
    requires Agree(s, st)
    ensures Agree(s, SlideCompare(s, st, b, pt))
  {
    if st.control.Some? && st.wrapper.Some? && Accepted(Position(s.verticalMode, b, pt)) {
      AcceptedIsApplied(s, st, b, pt);
    }
  }

  /** Last write wins: after an accepted sample, what an earlier sample did
      no longer shows. */
  lemma LastWriteWins(s: Settings, st: Styles, b1: Bounds, pt1: Point, b2: Bounds, pt2: Point)
    requires Accepted(Position(s.verticalMode, b2, pt2))
    ensures SlideCompare(s, SlideCompare(s, st, b1, pt1), b2, pt2) == SlideCompare(s, st, b2, pt2)
  {
  }

  /** Repeating a sample changes nothing more. */
  lemma SlideCompareIdempotent(s: Settings, st: Styles, b: Bounds, pt: Point)
    ensures SlideCompare(s, SlideCompare(s, st, b, pt), b, pt) == SlideCompare(s, st, b, pt)
  {
  }

  /** A 400 by 300 container at the origin, horizontal, pointer at (100, 150):
      p = 25, the handle sits at `calc(25% - 25px)` and the standard-mode
      wrapper is 75% wide. */
  lemma ScenarioHorizontalStandard(s: Settings, c: ControlStyle, w: WrapperStyle)
    requires !s.verticalMode && !s.fluidMode
    ensures var r := SlideCompare(s, Styles(Some(c), Some(w)), Bounds(0.0, 0.0, 400.0, 300.0), Point(100.0, 150.0));
            r == Styles(Some(c.(left := Some(Calc(25.0, -25.0)))), Some(w.(width := Some(75.0))))
  {
  }

  /** The same container in vertical fluid mode, pointer at y = 270: p = 90,
      the handle sits at `calc(90% - 25px)` and the mask is `inset(0 0 10% 0)`. */
  lemma ScenarioVerticalFluid(s: Settings, c: ControlStyle, w: WrapperStyle)
    requires s.verticalMode && s.fluidMode
    ensures var r := SlideCompare(s, Styles(Some(c), Some(w)), Bounds(0.0, 0.0, 400.0, 300.0), Point(100.0, 270.0));
            r == Styles(Some(c.(top := Some(Calc(90.0, -25.0)))), Some(w.(clipPath := Some(Inset(0.0, 0.0, 10.0, 0.0)))))
  {
  }

  /** A pointer 10 pixels left of the container changes nothing. */
  lemma ScenarioOutside(s: Settings, st: Styles)
    requires !s.verticalMode
    ensures SlideCompare(s, st, Bounds(0.0, 0.0, 400.0, 300.0), Point(-10.0, 150.0)) == st
  {
  }
}

=== FILE: scene.dfy ===
/** The scene builder: `shapeContainer` adds the labels, the spacer and the
    container's classes; `getImages` rebuilds the container from the kept
    nodes, picks the two layers and wraps the foreground one. The container's
    content is the document-order list of its descendants; nodes are
    abstract values identified by `id`. */
module Scene {
  import opened Wrappers
  import opened Settings
  import opened Geometry
  import opened Seqs

  /** An element's tag name; `Other` is any element that is not an `img`,
      a `video`, a `span` or a `div`. */
  datatype Tag = Img | Video | Span | Div | Other

  /** Nodes of the caller's markup are numbered; the three nodes that
      `shapeContainer` creates have identities of their own. */
  datatype NodeId = Markup(n: nat) | LabelBefore | LabelAfter | Imposter

  /** An element: its tag, class list, media URL (`src`), text content and
      inline pixel width, if one is set. */
  datatype Node = Node(id: NodeId, tag: Tag, classes: set<string>, src: string, text: string, widthPx: Option<real>)

  /** The container: its class list and its descendants in document order. */
  datatype Root = Root(classes: set<string>, content: seq<Node>)

  /** The layer wrapper (`icv__wrapper`) around the foreground layer. */
  datatype Wrapper = Wrapper(style: WrapperStyle, inner: Node)

  /** The container after `getImages`: the kept nodes left at top level, in
      order, then the wrapper (when a second layer exists), then in fluid
      mode the base layer showing the URL of the first layer. */
  datatype Scene = Scene(elements: seq<Node>, wrapper: Option<Wrapper>, fluidBase: Option<string>)

  /** `getImages` reads the `src` of a first layer that does not exist. */
  datatype Fault = TypeError

  const LayerAClasses: set<string> := {"icv__img", "icv__img-a"}
  const LayerBClasses: set<string> := {"icv__img", "icv__img-b"}

  /** An `img` or `video` element. */
  predicate IsMedia(n: Node) {
    n.tag == Img || n.tag == Video
  }

  /** Matched by `querySelectorAll('img, video, .keep')`. */
  predicate IsKept(n: Node) {
    IsMedia(n) || "keep" in n.classes
  }

  function Ids(ns: seq<Node>): (r: seq<NodeId>)
    ensures |r| == |ns| && forall i | 0 <= i < |ns| :: r[i] == ns[i].id
  {
    seq(|ns|, i requires 0 <= i < |ns| => ns[i].id)
  }

  /** The test that lets every node but the one with identity `id` through. */
  function NotId(id: NodeId): Node -> bool {
    (n: Node) => n.id != id
  }

  /** No two nodes of a tree are the same node. */
  predicate WellFormed(content: seq<Node>) {
    Distinct(Ids(content))
  }

  // ---------------------------------------------------------------- shapeContainer

  /** One label span (index.ts:192-206). */
  function LabelNode(s: Settings, id: NodeId, side: string, text: string): Node {
    Node(id, Span,
         {"icv__label", side, "keep"}
           + (if OnHover(s.labelOptions) then {"on-hover"} else {})
           + (if s.verticalMode then {"vertical"} else {}),
         "", text, None)
  }

  function BeforeLabel(s: Settings): Node {
    LabelNode(s, LabelBefore, "icv__label-before", BeforeText(s.labelOptions))
  }

  function AfterLabel(s: Settings): Node {
    LabelNode(s, LabelAfter, "icv__label-after", AfterText(s.labelOptions))
  }

  /** The spacer: it gets `icv__imposter` and nothing else. */
  const ImposterNode: Node := Node(Imposter, Div, {"icv__imposter"}, "", "", None)

  /** The container's orientation and mode classes (index.ts:213-217). */
  function RootClasses(s: Settings): set<string> {
    {"icv", if s.verticalMode then "icv__icv--vertical" else "icv__icv--horizontal",
     if s.fluidMode then "icv__is--fluid" else "standard"}
  }

  /** `shapeContainer` (index.ts:187-221): the container keeps all it had,
      gains the two labels only when `showLabels` and then the spacer, and
      is tagged with its orientation and mode. The labels are marked to
      survive the rebuild; the spacer is not. */
  function ShapeContainer(s: Settings, root: Root): (r: Root)
    ensures |r.content| == |root.content| + (if s.showLabels then 3 else 1)
    ensures r.content[..|root.content|] == root.content
    ensures r.content[|r.content| - 1] == ImposterNode && !IsKept(ImposterNode)
    ensures s.showLabels ==> r.content[|root.content|] == BeforeLabel(s) && r.content[|root.content| + 1] == AfterLabel(s)
    ensures IsKept(BeforeLabel(s)) && IsKept(AfterLabel(s))
    ensures r.classes == root.classes + RootClasses(s)
  {
    var labels := if s.showLabels then [BeforeLabel(s), AfterLabel(s)] else [];
    Root(root.classes + RootClasses(s), root.content + labels + [ImposterNode])
  }

  /** The label texts fall back to "Before" and "After", and the label
      classes follow `onHover` and `verticalMode` in both directions. */
  lemma LabelsFollowSettings(s: Settings)
    ensures BeforeLabel(s).text != [] && AfterLabel(s).text != []
    ensures ("on-hover" in BeforeLabel(s).classes) <==> OnHover(s.labelOptions)
    ensures ("on-hover" in AfterLabel(s).classes) <==> OnHover(s.labelOptions)
    ensures ("vertical" in BeforeLabel(s).classes) <==> s.verticalMode
    ensures ("vertical" in AfterLabel(s).classes) <==> s.verticalMode
    ensures s.labelOptions.before == Some("") ==> BeforeLabel(s).text == "Before"
  {
  }

  // ---------------------------------------------------------------- getImages

  /** The nodes re-appended after `innerHTML = ''` (index.ts:296-298). */
  function Kept(content: seq<Node>): seq<Node> {
    Select(content, IsKept)
  }

  /** The media among them, reversed in vertical mode (index.ts:300-306). */
  function Layers(s: Settings, content: seq<Node>): seq<Node> {
    var media := Select(Kept(content), IsMedia);
    if s.verticalMode then Reverse(media) else media
  }

  /** `getFluidModeStyle` (index.ts:360-370): in fluid mode, the
      foreground URL as background image and the clip mask for the
      starting point; nothing in standard mode. */
  function FluidModeStyle(s: Settings, afterUrl: string): (r: Option<(string, Inset)>)
    ensures r.Some? <==> s.fluidMode
    ensures r.Some? ==> r.value.0 == afterUrl
  {
    if !s.fluidMode then None
    else Some((afterUrl, if s.verticalMode then Inset(0.0, 0.0, 100.0 - s.startingPoint, 0.0)
                         else Inset(0.0, 0.0, 0.0, s.startingPoint)))
  }

  /** The wrapper's initial inline style (index.ts:320-326). */
  function InitialWrapperStyle(s: Settings, hasTouch: bool, afterUrl: string): (w: WrapperStyle)
    ensures w.width == Some(100.0 - s.startingPoint) && w.height == Some(s.startingPoint)
    ensures w.transitionMs == TransitionStyle(s, hasTouch)
    ensures w.backgroundImage == (if s.fluidMode then Some(afterUrl) else None)
    ensures w.clipPath.Some? <==> s.fluidMode
    ensures RevealedPercent(s.fluidMode, s.verticalMode, w) == Some(s.startingPoint)
  {
    var fluid := FluidModeStyle(s, afterUrl);
    WrapperStyle(Some(100.0 - s.startingPoint), Some(s.startingPoint), TransitionStyle(s, hasTouch),
                 if fluid.Some? then Some(fluid.value.0) else None,
                 if fluid.Some? then Some(fluid.value.1) else None)
  }

  /** The mask set at construction is the one `slideCompare` writes for a
      pointer at the starting point. */
  lemma InitialMaskIsDragMask(s: Settings, hasTouch: bool, afterUrl: string, w: WrapperStyle)
    requires s.fluidMode
    ensures InitialWrapperStyle(s, hasTouch, afterUrl).clipPath
            == Reveal(true, s.verticalMode, w, s.startingPoint).clipPath
  {
  }

  /** `ns` with the node of identity `id` given the classes `cs` as well. */
  function AddClasses(ns: seq<Node>, id: NodeId, cs: set<string>): (r: seq<Node>)
    ensures |r| == |ns|
    ensures forall i | 0 <= i < |ns| :: r[i] == (if ns[i].id == id then ns[i].(classes := ns[i].classes + cs) else ns[i])
  {
    seq(|ns|, i requires 0 <= i < |ns| => if ns[i].id == id then ns[i].(classes := ns[i].classes + cs) else ns[i])
  }

  /** The kept nodes with the first layer, if any, given its classes
      (index.ts:308-313 at index 0). */
  function MarkFirstLayer(s: Settings, content: seq<Node>): seq<Node> {
    var layers := Layers(s, content);
    if |layers| >= 1 then AddClasses(Kept(content), layers[0].id, LayerAClasses) else Kept(content)
  }

  /** The second layer as it sits in the wrapper (index.ts:312-332): with
      its classes, and in standard mode with the first layer's measured
      width when that is non-zero. */
  function SecondLayer(s: Settings, b: Node, layerAWidth: real): Node {
    b.(classes := b.classes + LayerBClasses,
       widthPx := if !s.fluidMode && layerAWidth != 0.0 then Some(layerAWidth) else b.widthPx)
  }

  /** `getImages` (index.ts:295-345). The first layer gets `icv__img-a`;
      the second gets `icv__img-b` and moves into the wrapper; media past
      the second are left alone. In fluid mode the first layer's URL is read
      for the base layer, which throws when there is no media at all. */
  function GetImages(s: Settings, content: seq<Node>, hasTouch: bool, layerAWidth: real): (r: Result<Scene, Fault>)
    ensures r.Err? <==> s.fluidMode && |Select(Kept(content), IsMedia)| == 0
    ensures r.Ok? ==> (r.value.wrapper.Some? <==> |Select(Kept(content), IsMedia)| >= 2)
    ensures r.Ok? ==> (r.value.fluidBase.Some? <==> s.fluidMode)
    ensures r.Ok? && r.value.wrapper.Some? ==>
              RevealedPercent(s.fluidMode, s.verticalMode, r.value.wrapper.value.style) == Some(s.startingPoint)
    ensures r.Ok? && s.fluidMode ==> r.value.fluidBase == Some(Layers(s, content)[0].src)
    ensures r.Ok? && r.value.wrapper.Some? ==>
              r.value.wrapper.value.style == InitialWrapperStyle(s, hasTouch, Layers(s, content)[1].src)
    ensures r.Ok? && r.value.wrapper.Some? ==>
              && r.value.wrapper.value.style.backgroundImage == (if s.fluidMode then Some(Layers(s, content)[1].src) else None)
              && r.value.wrapper.value.inner.widthPx
                   == (if !s.fluidMode && layerAWidth != 0.0 then Some(layerAWidth) else Layers(s, content)[1].widthPx)
    ensures r.Ok? && r.value.wrapper.Some? ==>
              var b := Layers(s, content)[1];
              r.value.wrapper.value.inner
                == Node(b.id, b.tag, b.classes + LayerBClasses, b.src, b.text,
                        if !s.fluidMode && layerAWidth != 0.0 then Some(layerAWidth) else b.widthPx)
  {
    var layers := Layers(s, content);
    if s.fluidMode && |layers| == 0 then Err(TypeError)
    else
      var base := if s.fluidMode then Some(layers[0].src) else None;
      if |layers| >= 2 then
        var b := layers[1];
        Ok(Scene(Select(MarkFirstLayer(s, content), NotId(b.id)),
                 Some(Wrapper(InitialWrapperStyle(s, hasTouch, b.src), SecondLayer(s, b, layerAWidth))),
                 base))
      else
        Ok(Scene(MarkFirstLayer(s, content), None, base))
  }

  /** Adding classes changes no identity. */
  lemma IdsAddClasses(ns: seq<Node>, id: NodeId, cs: set<string>)
    ensures Ids(AddClasses(ns, id, cs)) == Ids(ns)
  {
  }

  /** Identities of a list with one node in front. */
  lemma IdsCons(n: Node, ns: seq<Node>)
    ensures Ids([n] + ns) == [n.id] + Ids(ns)
  {
  }

  /** Dropping one identity commutes with taking identities. */
  lemma {:induction false} IdsSelectNotId(ns: seq<Node>, ms: seq<Node>, id: NodeId)
    requires Ids(ns) == Ids(ms)
    ensures Ids(Select(ns, NotId(id))) == Ids(Select(ms, NotId(id)))
  {
    var keep := NotId(id);
    if ns == [] {
      assert |ms| == 0;
    } else {
      assert |ms| == |ns|;
      assert ns[0].id == Ids(ns)[0] == Ids(ms)[0] == ms[0].id;
      assert Ids(ns[1..]) == Ids(ns)[1..];
      assert Ids(ms[1..]) == Ids(ms)[1..];
      IdsSelectNotId(ns[1..], ms[1..], id);
      var a, b := Select(ns[1..], keep), Select(ms[1..], keep);
      if keep(ns[0]) {
        assert Select(ns, keep) == [ns[0]] + a;
        assert Select(ms, keep) == [ms[0]] + b;
        IdsCons(ns[0], a);
        IdsCons(ms[0], b);
      } else {
        assert Select(ns, keep) == a;
        assert Select(ms, keep) == b;
      }
    }
  }

  /** A selection of a tree's nodes is again without repetition. */
  lemma {:induction false} SelectWellFormed(ns: seq<Node>, keep: Node -> bool)
    requires WellFormed(ns)
    ensures WellFormed(Select(ns, keep))
  {
    if ns != [] {
      DistinctTail(Ids(ns));
      assert Ids(ns[1..]) == Ids(ns)[1..];
      SelectWellFormed(ns[1..], keep);
      var rest := Select(ns[1..], keep);
      if keep(ns[0]) {
        assert Select(ns, keep) == [ns[0]] + rest;
        SelectIds(ns[1..], keep, ns[0].id);
        IdsCons(ns[0], rest);
        DistinctCons(ns[0].id, Ids(rest));
      } else {
        assert Select(ns, keep) == rest;
      }
    }
  }

  /** In a tree, a node is determined by its identity. */
  lemma SameIdSameNode(ns: seq<Node>, a: Node, b: Node)
    requires WellFormed(ns) && a in ns && b in ns && a.id == b.id
    ensures a == b
  {
    var i :| 0 <= i < |ns| && ns[i] == a;
    var j :| 0 <= j < |ns| && ns[j] == b;
    assert Ids(ns)[i] == Ids(ns)[j];
  }

  /** The layers are the first two media in document order in horizontal
      mode and the last two, last first, in vertical mode. */
  lemma LayerOrder(s: Settings, content: seq<Node>)
    ensures var media := Select(Kept(content), IsMedia);
            var layers := Layers(s, content);
            |layers| == |media|
            && forall i | 0 <= i < |media| ::
                 layers[i] == (if s.verticalMode then media[|media| - 1 - i] else media[i])
  {
    var media := Select(Kept(content), IsMedia);
    if s.verticalMode {
      assert Layers(s, content) == Reverse(media);
    } else {
      assert Layers(s, content) == media;
    }
  }

  /** The container's new top-level children are the kept nodes in document
      order; when a second layer exists, it alone is missing from them and
      sits in the wrapper with its classes added. */
  lemma GetImagesOrder(s: Settings, content: seq<Node>, hasTouch: bool, layerAWidth: real)
    ensures var r := GetImages(s, content, hasTouch, layerAWidth);
            r.Ok? ==>
            var sc := r.value;
            var layers := Layers(s, content);
            && (sc.wrapper.None? ==> Ids(sc.elements) == Ids(Kept(content)))
            && (sc.wrapper.Some? ==>
                  && Ids(sc.elements) == Ids(Select(Kept(content), NotId(layers[1].id)))
                  && sc.wrapper.value.inner.id == layers[1].id
                  && sc.wrapper.value.inner.classes == layers[1].classes + LayerBClasses)
  {
    var layers := Layers(s, content);
    var marked := MarkFirstLayer(s, content);
    if |layers| >= 1 {
      IdsAddClasses(Kept(content), layers[0].id, LayerAClasses);
    }
    assert Ids(marked) == Ids(Kept(content));
    if |layers| >= 2 {
      IdsSelectNotId(marked, Kept(content), layers[1].id);
    }
  }

  /** `n` is a node of the original content, or it is the first layer with
      `icv__img` and `icv__img-a` added. */
  predicate FromContent(s: Settings, content: seq<Node>, n: Node) {
    var layers := Layers(s, content);
    if |layers| >= 1 && n.id == layers[0].id
    then n == layers[0].(classes := layers[0].classes + LayerAClasses)
    else n in content
  }

  /** Marking the first layer changes that node only. */
  lemma MarkFirstLayerNodes(s: Settings, content: seq<Node>)
    requires WellFormed(content)
    ensures var marked := MarkFirstLayer(s, content);
            forall j | 0 <= j < |marked| :: FromContent(s, content, marked[j])
  {
    var kept := Kept(content);
    var layers := Layers(s, content);
    var marked := MarkFirstLayer(s, content);
    SelectWellFormed(content, IsKept);
    forall j | 0 <= j < |marked|
      ensures FromContent(s, content, marked[j])
    {
      assert kept[j] in content;
      if |layers| >= 1 && marked[j].id == layers[0].id {
        assert layers[0] in Select(kept, IsMedia);
        SameIdSameNode(kept, kept[j], layers[0]);
      }
    }
  }

  /** Every top-level node is a node of the original content, except the
      first layer, which is that node with `icv__img` and `icv__img-a` added. */
  lemma {:induction false} GetImagesMarksFirstLayer(s: Settings, content: seq<Node>, hasTouch: bool, layerAWidth: real)
    requires WellFormed(content)
    ensures var r := GetImages(s, content, hasTouch, layerAWidth);
            r.Ok? ==>
            forall i | 0 <= i < |r.value.elements| :: FromContent(s, content, r.value.elements[i])
  {
    if GetImages(s, content, hasTouch, layerAWidth).Err? {
      return;
    }
    var marked := MarkFirstLayer(s, content);
    var elements := GetImages(s, content, hasTouch, layerAWidth).value.elements;
    var layers := Layers(s, content);
    if |layers| >= 2 {
      assert elements == Select(marked, NotId(layers[1].id));
    } else {
      assert elements == marked;
    }
    MarkFirstLayerNodes(s, content);
    forall i | 0 <= i < |elements|
      ensures FromContent(s, content, elements[i])
    {
      assert elements[i] in marked;
    }
  }

  /** In a shaped container, only the spacer carries the spacer's identity,
      and it is not kept. */
  lemma ShapedSpacerUnkept(s: Settings, root: Root)
    requires forall i | 0 <= i < |root.content| :: root.content[i].id.Markup?
    ensures var content := ShapeContainer(s, root).content;
            forall k | 0 <= k < |content| :: content[k].id == Imposter ==> !IsKept(content[k])
  {
    var content := ShapeContainer(s, root).content;
    var n := |root.content|;
    forall k | 0 <= k < |content|
      ensures content[k].id == Imposter ==> !IsKept(content[k])
    {
      if k < n {
        assert content[k] == content[..n][k];
      } else if k < |content| - 1 {
        assert content[k] == BeforeLabel(s) || content[k] == AfterLabel(s);
      }
    }
  }

  /** The spacer is not among the nodes the rebuild keeps. */
  lemma ImposterNotKept(s: Settings, root: Root)
    requires forall i | 0 <= i < |root.content| :: root.content[i].id.Markup?
    ensures Imposter !in Ids(Kept(ShapeContainer(s, root).content))
  {
    var content := ShapeContainer(s, root).content;
    var kept := Kept(content);
    ShapedSpacerUnkept(s, root);
    forall j | 0 <= j < |kept|
      ensures kept[j].id != Imposter
    {
      var k :| 0 <= k < |content| && content[k] == kept[j];
    }
  }

  /** Selecting never brings in a new identity. */
  lemma SelectIds(ns: seq<Node>, keep: Node -> bool, id: NodeId)
    requires id !in Ids(ns)
    ensures id !in Ids(Select(ns, keep))
  {
    var r := Select(ns, keep);
    forall j | 0 <= j < |r|
      ensures r[j].id != id
    {
      var k :| 0 <= k < |ns| && ns[k] == r[j];
      assert Ids(ns)[k] == r[j].id;
    }
  }

  /** The spacer never survives the rebuild: it is not marked `keep`. */
  lemma ImposterDiscarded(s: Settings, root: Root, hasTouch: bool, layerAWidth: real)
    requires forall i | 0 <= i < |root.content| :: root.content[i].id.Markup?
    ensures var r := GetImages(s, ShapeContainer(s, root).content, hasTouch, layerAWidth);
            r.Ok? ==> Imposter !in Ids(r.value.elements)
  {
    var content := ShapeContainer(s, root).content;
    ImposterNotKept(s, root);
    GetImagesOrder(s, content, hasTouch, layerAWidth);
    var layers := Layers(s, content);
    if |layers| >= 2 {
      SelectIds(Kept(content), NotId(layers[1].id), Imposter);
    }
  }
}

=== FILE: seqs.dfy ===
/** Order-preserving selection and reversal of sequences, the two list
    operations the scene rebuild is made of. */
module Seqs {

  /** The elements of `s` that satisfy `keep`, in their original order. */
  function Select<T>(s: seq<T>, keep: T -> bool): (r: seq<T>)
    ensures |r| <= |s|
    ensures forall i | 0 <= i < |r| :: r[i] in s && keep(r[i])
    ensures forall i | 0 <= i < |s| && keep(s[i]) :: s[i] in r
  {
    if s == [] then []
    else if keep(s[0]) then [s[0]] + Select(s[1..], keep)
    else Select(s[1..], keep)
  }

  /** Selection distributes over concatenation: it never reorders. */
  lemma {:induction false} SelectAppend<T>(a: seq<T>, b: seq<T>, keep: T -> bool)
    ensures Select(a + b, keep) == Select(a, keep) + Select(b, keep)
  {
    if a == [] {
      assert a + b == b;
    } else {
      assert (a + b)[1..] == a[1..] + b;
      SelectAppend(a[1..], b, keep);
    }
  }

  /** `Array.prototype.reverse`. */
  function Reverse<T>(s: seq<T>): (r: seq<T>)
    ensures |r| == |s|
    ensures forall i | 0 <= i < |s| :: r[i] == s[|s| - 1 - i]
  {
    if s == [] then [] else Reverse(s[1..]) + [s[0]]
  }

  /** The elements of `s` are pairwise distinct. */
  predicate Distinct<T(==)>(s: seq<T>) {
    forall i, j | 0 <= i < |s| && 0 <= j < |s| && s[i] == s[j] :: i == j
  }

  /** The tail of a repetition-free sequence is repetition-free and does
      not hold the head. */
  lemma DistinctTail<T>(s: seq<T>)
    requires Distinct(s) && |s| > 0
    ensures Distinct(s[1..]) && s[0] !in s[1..]
  {
    forall i, j | 0 <= i < |s[1..]| && 0 <= j < |s[1..]| && s[1..][i] == s[1..][j]
      ensures i == j
    {
      assert s[i + 1] == s[j + 1];
    }
    forall k | 0 <= k < |s[1..]|
      ensures s[1..][k] != s[0]
    {
      assert s[1..][k] == s[k + 1];
    }
  }

  /** Putting a new element in front keeps a sequence repetition-free. */
  lemma DistinctCons<T>(x: T, s: seq<T>)
    requires Distinct(s) && x !in s
    ensures Distinct([x] + s)
  {
    var r := [x] + s;
    forall i, j | 0 <= i < |r| && 0 <= j < |r|
      ensures r[i] == r[j] ==> i == j
    {
      if i > 0 {
        assert r[i] == s[i - 1] && s[i - 1] in s;
      }
      if j > 0 {
        assert r[j] == s[j - 1] && s[j - 1] in s;
      }
    }
  }
}

=== FILE: settings.dfy ===
/** Settings resolution of the comparison slider: the caller's partial
    configuration spread over fixed defaults, the separately resolved line
    width, the label-text fallbacks, the Safari override of `smoothing` and
    the transition style derived from the result. */
module Settings {
  import opened Wrappers

  /** A `labelOptions` object. Each field may be missing at run time,
      because a caller's object replaces the default one as a whole and
      nothing fills in the fields it leaves out. */
  datatype LabelOptions = LabelOptions(before: Option<string>, after: Option<string>, onHover: Option<bool>)

  /** The effective configuration of one viewer (`this.settings`). The
      optional `lineWidth` is present only when the caller supplied it. */
  datatype Settings = Settings(
    controlColor: string,
    controlShadow: bool,
    addCircle: bool,
    addCircleBlur: bool,
    showLabels: bool,
    labelOptions: LabelOptions,
    smoothing: bool,
    smoothingAmount: real,
    hoverStart: bool,
    verticalMode: bool,
    startingPoint: real,
    fluidMode: bool,
    lineWidth: Option<real>)

  /** The caller's `Partial<Settings>`: `None` is a key the caller left out. */
  datatype PartialSettings = PartialSettings(
    controlColor: Option<string>,
    controlShadow: Option<bool>,
    addCircle: Option<bool>,
    addCircleBlur: Option<bool>,
    showLabels: Option<bool>,
    labelOptions: Option<LabelOptions>,
    smoothing: Option<bool>,
    smoothingAmount: Option<real>,
    hoverStart: Option<bool>,
    verticalMode: Option<bool>,
    startingPoint: Option<real>,
    fluidMode: Option<bool>,
    lineWidth: Option<real>)

  /** The top-level keys of a settings object. */
  datatype Key =
    | ControlColor | ControlShadow | AddCircle | AddCircleBlur | ShowLabels | Labels
    | Smoothing | SmoothingAmount | HoverStart | VerticalMode | StartingPoint | FluidMode
    | LineWidth

  /** The value stored under one key. */
  datatype Value = Str(s: string) | Bool(b: bool) | Num(r: real) | Lbl(l: LabelOptions)

  const AllKeys: set<Key> := {
    ControlColor, ControlShadow, AddCircle, AddCircleBlur, ShowLabels, Labels,
    Smoothing, SmoothingAmount, HoverStart, VerticalMode, StartingPoint, FluidMode,
    LineWidth
  }

  const DefaultLabels: LabelOptions := LabelOptions(Some("Before"), Some("After"), Some(false))

  /** The defaults of the constructor; they carry no `lineWidth` key. */
  function Defaults(): Settings {
    Settings("#FFFFFF", true, false, true, false, DefaultLabels, true, 100.0, false, false, 50.0, false, None)
  }

  /** The value a partial settings object holds under `k`, if it holds one. */
  function Given(p: PartialSettings, k: Key): Option<Value> {
    match k
    case ControlColor => if p.controlColor.Some? then Some(Str(p.controlColor.value)) else None
    case ControlShadow => if p.controlShadow.Some? then Some(Bool(p.controlShadow.value)) else None
    case AddCircle => if p.addCircle.Some? then Some(Bool(p.addCircle.value)) else None
    case AddCircleBlur => if p.addCircleBlur.Some? then Some(Bool(p.addCircleBlur.value)) else None
    case ShowLabels => if p.showLabels.Some? then Some(Bool(p.showLabels.value)) else None
    case Labels => if p.labelOptions.Some? then Some(Lbl(p.labelOptions.value)) else None
    case Smoothing => if p.smoothing.Some? then Some(Bool(p.smoothing.value)) else None
    case SmoothingAmount => if p.smoothingAmount.Some? then Some(Num(p.smoothingAmount.value)) else None
    case HoverStart => if p.hoverStart.Some? then Some(Bool(p.hoverStart.value)) else None
    case VerticalMode => if p.verticalMode.Some? then Some(Bool(p.verticalMode.value)) else None
    case StartingPoint => if p.startingPoint.Some? then Some(Num(p.startingPoint.value)) else None
    case FluidMode => if p.fluidMode.Some? then Some(Bool(p.fluidMode.value)) else None
    case LineWidth => if p.lineWidth.Some? then Some(Num(p.lineWidth.value)) else None
  }

  /** The keys a partial settings object supplies, with their values. */
  function Supplied(p: PartialSettings): map<Key, Value> {
    map k | k in AllKeys && Given(p, k).Some? :: Given(p, k).value
  }

  /** Reading one key of `Supplied(p)`. */
  lemma SuppliedAt(p: PartialSettings, k: Key)
    ensures k in Supplied(p) <==> Given(p, k).Some?
    ensures k in Supplied(p) ==> Supplied(p)[k] == Given(p, k).value
  {
    assert k in AllKeys by { match k { case _ => } }
  }

  /** A partial object that agrees key by key with `q` over `p` is, as a
      key/value object, the map union of the two. */
  lemma SuppliedUnion(p: PartialSettings, q: PartialSettings, r: PartialSettings)
    requires forall k :: Given(r, k) == (if Given(q, k).Some? then Given(q, k) else Given(p, k))
    ensures Supplied(r) == Supplied(p) + Supplied(q)
  {
    forall k
      ensures k in Supplied(r) <==> k in Supplied(p) + Supplied(q)
      ensures k in Supplied(r) ==> Supplied(r)[k] == (Supplied(p) + Supplied(q))[k]
    {
      SuppliedAt(p, k);
      SuppliedAt(q, k);
      SuppliedAt(r, k);
    }
  }

  /** A full settings object seen as a key/value object. */
  function Entries(s: Settings): map<Key, Value> {
    Supplied(Full(s))
  }

  /** The partial settings object that supplies every key of `s`. */
  function Full(s: Settings): PartialSettings {
    PartialSettings(
      Some(s.controlColor), Some(s.controlShadow), Some(s.addCircle), Some(s.addCircleBlur),
      Some(s.showLabels), Some(s.labelOptions), Some(s.smoothing), Some(s.smoothingAmount),
      Some(s.hoverStart), Some(s.verticalMode), Some(s.startingPoint), Some(s.fluidMode),
      s.lineWidth)
  }

  /** The record built by spreading `p` over `d`. */
  function Merge(p: PartialSettings, d: Settings): Settings {
    Settings(
      p.controlColor.GetOr(d.controlColor), p.controlShadow.GetOr(d.controlShadow),
      p.addCircle.GetOr(d.addCircle), p.addCircleBlur.GetOr(d.addCircleBlur),
      p.showLabels.GetOr(d.showLabels), p.labelOptions.GetOr(d.labelOptions),
      p.smoothing.GetOr(d.smoothing), p.smoothingAmount.GetOr(d.smoothingAmount),
      p.hoverStart.GetOr(d.hoverStart), p.verticalMode.GetOr(d.verticalMode),
      p.startingPoint.GetOr(d.startingPoint), p.fluidMode.GetOr(d.fluidMode),
      if p.lineWidth.Some? then p.lineWidth else d.lineWidth)
  }

  /** Key by key, the merged record holds the supplied value if there is one
      and the default otherwise. */
  lemma MergeAt(p: PartialSettings, d: Settings, k: Key)
    ensures Given(Full(Merge(p, d)), k) == (if Given(p, k).Some? then Given(p, k) else Given(Full(d), k))
  {
  }

  /** `{ ...defaults, ...settings }` (index.ts:61): read as key/value
      objects, the result is the map union of the defaults and the supplied
      keys, the supplied value winning on every key the caller gives; in
      particular a supplied `labelOptions` replaces the default whole. */
  function Resolve(p: PartialSettings): (s: Settings)
    ensures Entries(s) == Entries(Defaults()) + Supplied(p)
  {
    var s := Merge(p, Defaults());
    assert forall k :: Given(Full(s), k) == (if Given(p, k).Some? then Given(p, k) else Given(Full(Defaults()), k)) by {
      forall k ensures Given(Full(s), k) == (if Given(p, k).Some? then Given(p, k) else Given(Full(Defaults()), k)) {
        MergeAt(p, Defaults(), k);
      }
    }
    SuppliedUnion(Full(Defaults()), p, Full(s));
    s
  }

  /** Resolving an empty partial object yields the defaults. */
  lemma ResolveNothing()
    ensures Resolve(PartialSettings(None, None, None, None, None, None, None, None, None, None, None, None, None)) == Defaults()
  {
  }

  /** A caller that supplies every key gets exactly what it supplied: the
      defaults never leak through a supplied key. */
  lemma {:induction false} ResolveFull(s: Settings)
    ensures Resolve(Full(s)) == s
  {
    var r := Resolve(Full(s));
    assert forall k :: Given(Full(s), k) == (if Given(Full(s), k).Some? then Given(Full(s), k) else Given(Full(Defaults()), k));
    SuppliedUnion(Full(Defaults()), Full(s), Full(s));
    EntriesInjective(r, s);
  }

  /** Two settings objects with the same entries are the same object. */
  lemma EntriesInjective(a: Settings, b: Settings)
    requires Entries(a) == Entries(b)
    ensures a == b
  {
    forall k
      ensures Given(Full(a), k) == Given(Full(b), k)
    {
      SuppliedAt(Full(a), k);
      SuppliedAt(Full(b), k);
    }
    GivenInjective(Full(a), Full(b));
  }

  /** Two partial objects that hold the same value under every key are the
      same object. */
  lemma GivenInjective(p: PartialSettings, q: PartialSettings)
    requires forall k :: Given(p, k) == Given(q, k)
    ensures p == q
  {
    assert Given(p, ControlColor) == Given(q, ControlColor);
    assert Given(p, ControlShadow) == Given(q, ControlShadow);
    assert Given(p, AddCircle) == Given(q, AddCircle);
    assert Given(p, AddCircleBlur) == Given(q, AddCircleBlur);
    assert Given(p, ShowLabels) == Given(q, ShowLabels);
    assert Given(p, Labels) == Given(q, Labels);
    assert Given(p, Smoothing) == Given(q, Smoothing);
    assert Given(p, SmoothingAmount) == Given(q, SmoothingAmount);
    assert Given(p, HoverStart) == Given(q, HoverStart);
    assert Given(p, VerticalMode) == Given(q, VerticalMode);
    assert Given(p, StartingPoint) == Given(q, StartingPoint);
    assert Given(p, FluidMode) == Given(q, FluidMode);
    assert Given(p, LineWidth) == Given(q, LineWidth);
  }

  /** The later partial object wins key by key. */
  function Overlay(p: PartialSettings, q: PartialSettings): PartialSettings {
    PartialSettings(
      if q.controlColor.Some? then q.controlColor else p.controlColor,
      if q.controlShadow.Some? then q.controlShadow else p.controlShadow,
      if q.addCircle.Some? then q.addCircle else p.addCircle,
      if q.addCircleBlur.Some? then q.addCircleBlur else p.addCircleBlur,
      if q.showLabels.Some? then q.showLabels else p.showLabels,
      if q.labelOptions.Some? then q.labelOptions else p.labelOptions,
      if q.smoothing.Some? then q.smoothing else p.smoothing,
      if q.smoothingAmount.Some? then q.smoothingAmount else p.smoothingAmount,
      if q.hoverStart.Some? then q.hoverStart else p.hoverStart,
      if q.verticalMode.Some? then q.verticalMode else p.verticalMode,
      if q.startingPoint.Some? then q.startingPoint else p.startingPoint,
      if q.fluidMode.Some? then q.fluidMode else p.fluidMode,
      if q.lineWidth.Some? then q.lineWidth else p.lineWidth)
  }

  /** The shallow merge composes like object spread:
      `{ ...{ ...defaults, ...p }, ...q }` equals `{ ...defaults, ...{ ...p, ...q } }`. */
  lemma {:induction false} ResolveOverlay(p: PartialSettings, q: PartialSettings)
    ensures Entries(Resolve(p)) + Supplied(q) == Entries(Resolve(Overlay(p, q)))
  {
    assert forall k :: Given(Overlay(p, q), k) == (if Given(q, k).Some? then Given(q, k) else Given(p, k));
    SuppliedUnion(p, q, Overlay(p, q));
    var e := Entries(Defaults());
    assert e + (Supplied(p) + Supplied(q)) == (e + Supplied(p)) + Supplied(q);
  }

  /** `settings.lineWidth || 2` (index.ts:64): an absent or zero line width
      falls back to 2 pixels, any other supplied width is kept. */
  function ResolveLineWidth(supplied: Option<real>): (w: real)
    ensures supplied.Some? && supplied.value != 0.0 ==> w == supplied.value
    ensures supplied.None? || supplied.value == 0.0 ==> w == 2.0
    ensures w != 0.0
  {
    if supplied.Some? && supplied.value != 0.0 then supplied.value else 2.0
  }

  /** `labelOptions.before || 'Before'` (index.ts:205): the text of the
      "before" label is never empty; it is the caller's text when that is
      present and non-empty and "Before" otherwise. */
  function BeforeText(l: LabelOptions): (t: string)
    ensures t != []
    ensures l.before.Some? && l.before.value != [] ==> t == l.before.value
    ensures l.before.None? || l.before.value == [] ==> t == "Before"
  {
    if l.before.Some? && l.before.value != [] then l.before.value else "Before"
  }

  /** `labelOptions.after || 'After'` (index.ts:206). */
  function AfterText(l: LabelOptions): (t: string)
    ensures t != []
    ensures l.after.Some? && l.after.value != [] ==> t == l.after.value
    ensures l.after.None? || l.after.value == [] ==> t == "After"
  {
    if l.after.Some? && l.after.value != [] then l.after.value else "After"
  }

  /** `labelOptions.onHover` as a condition: a missing value is falsy. */
  function OnHover(l: LabelOptions): (b: bool)
    ensures b <==> l.onHover == Some(true)
  {
    l.onHover.GetOr(false)
  }

  /** The field-by-field merge the source does NOT perform. */
  function DeepMerge(d: LabelOptions, l: LabelOptions): LabelOptions {
    LabelOptions(
      if l.before.Some? then l.before else d.before,
      if l.after.Some? then l.after else d.after,
      if l.onHover.Some? then l.onHover else d.onHover)
  }

  /** Replacing `labelOptions` whole cannot be told apart from merging it
      field by field: the label texts and the hover flag the viewer derives
      are the same either way, because the defaults coincide with the
      fallbacks applied when the labels are shaped. */
  lemma {:induction false} LabelsWholesaleUnobservable(p: PartialSettings)
    requires p.labelOptions.Some?
    ensures var l := Resolve(p).labelOptions;
            var m := DeepMerge(DefaultLabels, p.labelOptions.value);
            BeforeText(l) == BeforeText(m) && AfterText(l) == AfterText(m) && OnHover(l) == OnHover(m)
  {
    var l := p.labelOptions.value;
    assert Resolve(p).labelOptions == l;
  }

  /** A partial object that supplies `smoothing` alone. */
  function SmoothingOnly(b: bool): PartialSettings {
    PartialSettings(None, None, None, None, None, None, Some(b), None, None, None, None, None, None)
  }

  lemma SmoothingOnlySupplies(b: bool)
    ensures Supplied(SmoothingOnly(b)) == map[Smoothing := Bool(b)]
  {
    forall k
      ensures k in Supplied(SmoothingOnly(b)) <==> k == Smoothing
    {
      SuppliedAt(SmoothingOnly(b), k);
    }
    SuppliedAt(SmoothingOnly(b), Smoothing);
  }

  /** Overriding `smoothing` alone leaves every other key as it was. */
  lemma SmoothingOverride(s: Settings, b: bool)
    ensures Entries(s.(smoothing := b)) == Entries(s)[Smoothing := Bool(b)]
  {
    var only := SmoothingOnly(b);
    assert s.(smoothing := b) == Merge(only, s);
    forall k
      ensures Given(Full(s.(smoothing := b)), k) == (if Given(only, k).Some? then Given(only, k) else Given(Full(s), k))
    {
      MergeAt(only, s, k);
    }
    SuppliedUnion(Full(s), only, Full(s.(smoothing := b)));
    SmoothingOnlySupplies(b);
    assert Entries(s) + map[Smoothing := Bool(b)] == Entries(s)[Smoothing := Bool(b)];
  }

  /** `mount` on Safari (index.ts:68-70): smoothing is switched off and every
      other key keeps its value. */
  function ForBrowser(s: Settings, isSafari: bool): (r: Settings)
    ensures r == s.(smoothing := s.smoothing && !isSafari)
    ensures Entries(r) == Entries(s)[Smoothing := Bool(s.smoothing && !isSafari)]
  {
    SmoothingOverride(s, s.smoothing && !isSafari);
    if isSafari then s.(smoothing := false) else s
  }

  /** `getTransitionStyle` (index.ts:354-358): a transition lasting
      `smoothingAmount` milliseconds, and none at all on a touch device or
      when smoothing is off. */
  function TransitionStyle(s: Settings, hasTouch: bool): (t: Option<real>)
    ensures t.None? <==> hasTouch || !s.smoothing
    ensures t.Some? ==> t.value == s.smoothingAmount
  {
    if hasTouch || !s.smoothing then None else Some(s.smoothingAmount)
  }

  /** On Safari no element ever gets a transition, whatever the caller asked. */
  lemma SafariNeverSmooths(s: Settings, hasTouch: bool)
    ensures TransitionStyle(ForBrowser(s, true), hasTouch).None?
  {
  }
}

=== FILE: viewer.dfy ===
/** The viewer instance: construction, `mount`, and the drag state machine
    that `setupEvents` wires to the container, the handle and the page body.
    The scroll-lock collaborator is a boolean; the body's `icv__body`
    marker is another. */
module Viewer {
  import opened Wrappers
  import opened Settings
  import opened Geometry
  import opened Arrows
  import opened Control
  import opened Scene
  import opened Seqs

  /** A constructed, not yet mounted viewer (index.ts:41-65). */
  datatype Viewer = Viewer(settings: Settings, lineWidth: real, safariAgent: bool)

  /** A mounted viewer. `scene`, `control` and the container classes are
      built once; `styles`, `arrows`, `active`, `bodyMarked` and
      `scrollLocked` are what the event handlers change afterwards. So
      `control` is the handle as mounted: its own style and arrow positions
      stay at their mount values, and the live ones are `styles.control`
      and `arrows`. */
  datatype Widget = Widget(
    settings: Settings,
    lineWidth: real,
    rootClasses: set<string>,
    scene: Scene,
    control: ControlNode,
    styles: Styles,
    arrows: seq<Translate>,
    active: bool,
    bodyMarked: bool,
    scrollLocked: bool)

  /** The constructor: the settings spread over the defaults, and the line
      width taken from the caller's own object with its fallback of 2. */
  function Construct(p: PartialSettings, isSafari: bool): (v: Viewer)
    ensures Entries(v.settings) == Entries(Defaults()) + Supplied(p)
    ensures v.lineWidth != 0.0
    ensures p.lineWidth.Some? && p.lineWidth.value != 0.0 ==> v.lineWidth == p.lineWidth.value
  {
    Viewer(Resolve(p), ResolveLineWidth(p.lineWidth), isSafari)
  }

  /** The wrapper's style, if there is a wrapper. */
  function WrapperStyleOf(sc: Scene): Option<WrapperStyle> {
    if sc.wrapper.Some? then Some(sc.wrapper.value.style) else None
  }

  /** `mount` (index.ts:67-77) with the environment as parameters: whether
      the device has touch, and the rendered width of the first layer. It
      fails only where `getImages` throws. Once mounted, nothing is active
      or locked, the arrows rest, the handle and the wrapper both show the
      starting point, and on Safari nothing is smoothed. */
  function Mount(v: Viewer, root: Root, hasTouch: bool, layerAWidth: real): (r: Result<Widget, Fault>)
    ensures r.Err? <==> v.settings.fluidMode && |Select(Kept(ShapeContainer(ForBrowser(v.settings, v.safariAgent), root).content), IsMedia)| == 0
    ensures r.Ok? ==> var w := r.value;
            && !w.active && !w.bodyMarked && !w.scrollLocked
            && w.arrows == ArrowPositions(w.settings, false)
            && w.styles.control.Some?
            && HandlePercent(w.settings.verticalMode, w.styles.control.value) == Some(v.settings.startingPoint)
            && (w.styles.wrapper.Some? ==>
                  RevealedPercent(w.settings.fluidMode, w.settings.verticalMode, w.styles.wrapper.value) == Some(v.settings.startingPoint))
            && (v.safariAgent ==> w.styles.control.value.transitionMs.None?)
            && Entries(w.settings) == Entries(v.settings)[Smoothing := Bool(v.settings.smoothing && !v.safariAgent)]
    ensures var s := ForBrowser(v.settings, v.safariAgent);
            var shaped := ShapeContainer(s, root);
            r.Ok? ==>
              && r.value.rootClasses == shaped.classes
              && r.value.scene == GetImages(s, shaped.content, hasTouch, layerAWidth).value
              && r.value.control == BuildControl(s, v.lineWidth, hasTouch)
  {
    var s := ForBrowser(v.settings, v.safariAgent);
    assert s.startingPoint == v.settings.startingPoint && s.fluidMode == v.settings.fluidMode;
    assert Entries(s) == Entries(v.settings)[Smoothing := Bool(v.settings.smoothing && !v.safariAgent)];
    var shaped := ShapeContainer(s, root);
    var r := MountShaped(s, v.lineWidth, root, hasTouch, layerAWidth);
    assert r.Ok? ==> r.value == Assemble(s, v.lineWidth, shaped.classes, GetImages(s, shaped.content, hasTouch, layerAWidth).value, hasTouch);
    r
  }

  /** `mount` after the browser override: shape the container, rebuild it,
      and assemble the widget, or fail where the rebuild throws. */
  function MountShaped(s: Settings, lineWidth: real, root: Root, hasTouch: bool, layerAWidth: real): (r: Result<Widget, Fault>)
    ensures var shaped := ShapeContainer(s, root);
            var g := GetImages(s, shaped.content, hasTouch, layerAWidth);
            && (r.Err? <==> g.Err?)
            && (r.Ok? ==> r.value == Assemble(s, lineWidth, shaped.classes, g.value, hasTouch))
  {
    var shaped := ShapeContainer(s, root);
    match GetImages(s, shaped.content, hasTouch, layerAWidth)
    case Err(e) => Err(e)
    case Ok(sc) => Ok(Assemble(s, lineWidth, shaped.classes, sc, hasTouch))
  }

  /** The widget as `mount` leaves it (index.ts:72-75): the rebuilt scene
      and a fresh handle, both showing the starting point, nothing active or
      locked, and the arrows at rest. */
  function Assemble(s: Settings, lineWidth: real, classes: set<string>, sc: Scene, hasTouch: bool): (w: Widget)
    requires sc.wrapper.Some? ==>
               RevealedPercent(s.fluidMode, s.verticalMode, sc.wrapper.value.style) == Some(s.startingPoint)
    ensures w.settings == s && w.lineWidth == lineWidth && w.rootClasses == classes && w.scene == sc
    ensures w.control == BuildControl(s, lineWidth, hasTouch)
    ensures w.styles == Styles(Some(w.control.style), WrapperStyleOf(sc))
    ensures !w.active && !w.bodyMarked && !w.scrollLocked
    ensures w.arrows == ArrowPositions(s, false)
    ensures w.styles.control.Some?
    ensures HandlePercent(s.verticalMode, w.styles.control.value) == Some(s.startingPoint)
    ensures w.styles.control.value.transitionMs == TransitionStyle(s, hasTouch)
    ensures w.styles.wrapper.Some? <==> sc.wrapper.Some?
    ensures w.styles.wrapper.Some? ==>
              RevealedPercent(s.fluidMode, s.verticalMode, w.styles.wrapper.value) == Some(s.startingPoint)
  {
    var control := BuildControl(s, lineWidth, hasTouch);
    Widget(s, lineWidth, classes, sc, control,
           Styles(Some(control.style), WrapperStyleOf(sc)),
           ArrowPositions(s, false), false, false, false)
  }

  // ---------------------------------------------------------------- handlers

  /** One pointer sample: the container's bounds when the handler ran and
      the event's client coordinates. */
  datatype Sample = Sample(bounds: Bounds, point: Point)

  /** The listeners of `setupEvents` (index.ts:80-122), one per handler. */
  datatype Event =
    | MouseDown(sample: Sample)      // on the container
    | MouseMove(sample: Sample)      // on the container
    | MouseUp                        // on the container
    | BodyMouseUp                    // on document.body
    | ControlTouchStart              // on the handle
    | TouchMove(sample: Sample)      // on the container
    | TouchEnd                       // on the container
    | MouseEnter                     // on the container
    | MouseLeave                     // on the container

  /** `slideCompare` on the widget's styles. */
  function Slide(w: Widget, sm: Sample): Widget {
    w.(styles := SlideCompare(w.settings, w.styles, sm.bounds, sm.point))
  }

  /** `activate(true)`, the body marker and the scroll lock, together. */
  function Grab(w: Widget): Widget {
    w.(active := true, bodyMarked := true, scrollLocked := true)
  }

  /** `activate(false)`, the marker removed and the scroll lock released. */
  function Release(w: Widget): Widget {
    w.(active := false, bodyMarked := false, scrollLocked := false)
  }

  /** Running one handler. What is built at mount never changes. */
  function Step(w: Widget, e: Event): (r: Widget)
    ensures r.settings == w.settings && r.lineWidth == w.lineWidth && r.rootClasses == w.rootClasses
    ensures r.scene == w.scene && r.control == w.control
  {
    match e
    case MouseDown(sm) => Slide(Grab(w), sm)
    case MouseMove(sm) => if w.active then Slide(w, sm) else w
    case MouseUp => w.(active := false)
    case BodyMouseUp => Release(w)
    case ControlTouchStart => Grab(w)
    case TouchMove(sm) => if w.active then Slide(w, sm) else w
    case TouchEnd => Release(w)
    case MouseEnter => w.(active := w.active || w.settings.hoverStart, arrows := ArrowPositions(w.settings, true))
    case MouseLeave => w.(arrows := ArrowPositions(w.settings, false))
  }

  /** Pressing the mouse starts a drag and updates once; touching the
      handle starts a drag without updating (index.ts:80-85, 99-103). */
  lemma {:induction false} DragStart(w: Widget, sm: Sample)
    ensures var r := Step(w, MouseDown(sm));
            r.active && r.bodyMarked && r.scrollLocked
            && r.styles == SlideCompare(w.settings, w.styles, sm.bounds, sm.point)
            && r.arrows == w.arrows
    ensures var r := Step(w, ControlTouchStart);
            r.active && r.bodyMarked && r.scrollLocked && r.styles == w.styles && r.arrows == w.arrows
  {
  }

  /** Moves update the styles only during a drag (index.ts:87-89, 105-107). */
  lemma MoveOnlyWhileActive(w: Widget, sm: Sample)
    ensures !w.active ==> Step(w, MouseMove(sm)) == w && Step(w, TouchMove(sm)) == w
    ensures w.active ==> Step(w, MouseMove(sm)) == w.(styles := SlideCompare(w.settings, w.styles, sm.bounds, sm.point))
    ensures w.active ==> Step(w, TouchMove(sm)) == Step(w, MouseMove(sm))
  {
  }

  /** The body's mouse-up and the container's touch end finish the drag and
      release the lock; the container's own mouse-up only clears `active`
      and leaves marker and lock as they were (index.ts:91-97, 109-113). */
  lemma DragEnd(w: Widget)
    ensures var r := Step(w, BodyMouseUp); !r.active && !r.bodyMarked && !r.scrollLocked && r.styles == w.styles
    ensures Step(w, TouchEnd) == Step(w, BodyMouseUp)
    ensures var r := Step(w, MouseUp);
            !r.active && r.bodyMarked == w.bodyMarked && r.scrollLocked == w.scrollLocked && r.styles == w.styles
  {
  }

  /** Hover moves the arrows and nothing else, except that entering starts
      a drag exactly when `hoverStart` is set (index.ts:115-122). */
  lemma Hover(w: Widget)
    ensures var r := Step(w, MouseEnter);
            r.active == (w.active || w.settings.hoverStart)
            && r.arrows == ArrowPositions(w.settings, true)
            && r.styles == w.styles && r.scrollLocked == w.scrollLocked && r.bodyMarked == w.bodyMarked
    ensures Step(w, MouseLeave) == w.(arrows := ArrowPositions(w.settings, false))
  {
  }

  /** Only hover moves the arrows; dragging never does. */
  lemma ArrowsOnlyOnHover(w: Widget, e: Event)
    requires !e.MouseEnter? && !e.MouseLeave?
    ensures Step(w, e).arrows == w.arrows
  {
  }

  /** Without a second layer there is no wrapper, and no event moves anything. */
  lemma SingleLayerFrozen(w: Widget, e: Event)
    requires w.styles.wrapper.None?
    ensures Step(w, e).styles == w.styles
  {
  }

  // ---------------------------------------------------------------- traces

  /** Handlers run one after another. */
  function Run(w: Widget, es: seq<Event>): Widget
    decreases |es|
  {
    if es == [] then w else Run(Step(w, es[0]), es[1..])
  }

  lemma RunOne(w: Widget, e: Event)
    ensures Run(w, [e]) == Step(w, e)
  {
    assert [e][1..] == [];
  }

  lemma RunTwo(w: Widget, e1: Event, e2: Event)
    ensures Run(w, [e1, e2]) == Step(Step(w, e1), e2)
  {
    assert [e1, e2][1..] == [e2];
    RunOne(Step(w, e1), e2);
  }

  /** The body's marker class and the scroll lock are taken and given back
      together by every handler, so they agree after any run of handlers. */
  lemma {:induction false} MarkerTracksLock(w: Widget, es: seq<Event>)
    requires w.bodyMarked == w.scrollLocked
    ensures Run(w, es).bodyMarked == Run(w, es).scrollLocked
    decreases |es|
  {
    if es != [] {
      MarkerTracksLock(Step(w, es[0]), es[1..]);
    }
  }

  /** What the user does. */
  datatype Input =
    | Press(sample: Sample)          // mouse button down inside the container
    | Drag(sample: Sample)           // mouse moved inside the container
    | ReleaseInside                  // mouse button up inside the container
    | ReleaseOutside                 // mouse button up elsewhere on the page
    | TouchHandle                    // finger down on the handle
    | TouchDrag(sample: Sample)      // finger moved within the container
    | Lift                           // finger up, the touch having begun in the container
    | Enter                          // pointer enters the container
    | Leave                          // pointer leaves the container

  /** The handlers one input runs. A mouse-up inside the container reaches
      its own listener and then, bubbling up, the body's. */
  function Handlers(i: Input): (es: seq<Event>)
    ensures i.ReleaseInside? ==> es == [MouseUp, BodyMouseUp]
    ensures !i.ReleaseInside? ==> |es| == 1
  {
    match i
    case Press(sm) => [MouseDown(sm)]
    case Drag(sm) => [MouseMove(sm)]
    case ReleaseInside => [MouseUp, BodyMouseUp]
    case ReleaseOutside => [BodyMouseUp]
    case TouchHandle => [ControlTouchStart]
    case TouchDrag(sm) => [TouchMove(sm)]
    case Lift => [TouchEnd]
    case Enter => [MouseEnter]
    case Leave => [MouseLeave]
  }

  function Deliver(w: Widget, i: Input): Widget {
    Run(w, Handlers(i))
  }

  function Session(w: Widget, inputs: seq<Input>): Widget
    decreases |inputs|
  {
    if inputs == [] then w else Session(Deliver(w, inputs[0]), inputs[1..])
  }

  /** What holds of a mounted widget between inputs: marker and lock agree;
      the page is locked only during a drag; the arrows are at rest or
      hovered; the handle shows a position, and it is the starting point
      or lies in [0, 100]; and when there is a wrapper it shows the same
      position as the handle. */
  predicate Good(w: Widget, startingPoint: real) {
    && w.bodyMarked == w.scrollLocked
    && (w.scrollLocked ==> w.active)
    && (w.arrows == ArrowPositions(w.settings, false) || w.arrows == ArrowPositions(w.settings, true))
    && w.styles.control.Some?
    && Agree(w.settings, w.styles)
    && var h := HandlePercent(w.settings.verticalMode, w.styles.control.value);
       h.Some? && (h.value == startingPoint || 0.0 <= h.value <= 100.0)
  }

  /** A freshly mounted widget is good. */
  lemma MountGood(v: Viewer, root: Root, hasTouch: bool, layerAWidth: real)
    ensures var r := Mount(v, root, hasTouch, layerAWidth);
            r.Ok? ==> Good(r.value, v.settings.startingPoint)
  {
  }

  /** One update keeps the handle at the starting point or in range, and
      the wrapper in agreement with it. */
  lemma SlideGood(w: Widget, sm: Sample, sp: real)
    requires Good(w, sp)
    ensures Good(Slide(w, sm), sp)
  {
    SlideCompareKeepsAgreement(w.settings, w.styles, sm.bounds, sm.point);
    if Slide(w, sm).styles != w.styles {
      WrittenValuesInRange(w.settings, w.styles, sm.bounds, sm.point);
    }
  }

  /** Every input keeps a widget good. */
  lemma {:induction false} DeliverGood(w: Widget, i: Input, sp: real)
    requires Good(w, sp)
    ensures Good(Deliver(w, i), sp)
  {
    match i
    case ReleaseInside => RunTwo(w, MouseUp, BodyMouseUp);
    case Press(sm) => RunOne(w, MouseDown(sm)); SlideGood(Grab(w), sm, sp);
    case Drag(sm) => RunOne(w, MouseMove(sm)); if w.active { SlideGood(w, sm, sp); }
    case TouchDrag(sm) => RunOne(w, TouchMove(sm)); if w.active { SlideGood(w, sm, sp); }
    case _ => RunOne(w, Handlers(i)[0]);
  }

  /** Whatever the user does, a mounted widget stays good: in particular
      the page is never left scroll-locked without a drag in progress, and
      the handle and the revealed part never disagree. */
  lemma {:induction false} SessionGood(w: Widget, inputs: seq<Input>, sp: real)
    requires Good(w, sp)
    ensures Good(Session(w, inputs), sp)
    decreases |inputs|
  {
    if inputs != [] {
      DeliverGood(w, inputs[0], sp);
      SessionGood(Deliver(w, inputs[0]), inputs[1..], sp);
    }
  }

  /** A mouse-up inside the container ends the drag exactly as one outside
      does: the container's own listener adds nothing. */
  lemma ReleaseInsideIsReleaseOutside(w: Widget)
    ensures Deliver(w, ReleaseInside) == Deliver(w, ReleaseOutside)
  {
    RunTwo(w, MouseUp, BodyMouseUp);
    RunOne(w, BodyMouseUp);
  }

  /** A drag started in the container and released elsewhere on the page
      ends inactive and unlocked. */
  lemma ScenarioReleaseOnBody(w: Widget, sm: Sample)
    ensures var r := Session(w, [Press(sm), ReleaseOutside]);
            !r.active && !r.scrollLocked && !r.bodyMarked
  {
    assert [Press(sm), ReleaseOutside][1..] == [ReleaseOutside];
    assert [ReleaseOutside][1..] == [];
    RunOne(w, MouseDown(sm));
    RunOne(Deliver(w, Press(sm)), BodyMouseUp);
  }
}

=== FILE: wrappers.dfy ===
/** The wrappers shared by the other modules: an optional
    value (a JavaScript `null`/`undefined` or an absent key) and the outcome
    of an operation that may throw. */
module Wrappers {

  datatype Option<+T> = None | Some(value: T) {

    /** The wrapped value, or `default` when there is none. */
    function GetOr(default: T): T {
      match this
      case Some(v) => v
      case None => default
    }
  }

  /** The outcome of an operation that either completes or throws. */
  datatype Result<+T, +E> = Ok(value: T) | Err(error: E)
}
